=== FILE: README.md ===
# video_curses colour and glyph mapping in Dafny

`video_curses.py` is meant to play a video in a terminal. As written it draws nothing: `run` raises before its first frame (see the `finally` line under "## Left out"). It is meant to resize each decoded RGB frame to a grid of cells, brighten it, and draw it with curses. Every cell becomes either a blank or a pattern glyph in one of 256 colours. This project models the per-cell decisions of `VideoToCursesASCII_FFplayer` and the loop that writes a frame onto the screen. It proves what those decisions guarantee.

- `config.dfy` (module `Settings`): 8-bit channels, RGB samples and the configuration record set by the constructor. The reference colour is pure green and the glyph pattern is `"OIA"`.
- `palette.dfy` (module `Palette`): `_color_index_256`. Each channel gets one of six levels, and the levels are packed into the xterm 6×6×6 colour cube (indices 16..231). For c in 0..255, `int(c / 256.0 * 6)` is computed exactly in double precision, so the level is the integer `(6 * c) / 256`. A lemma ties that integer to the real-number formula.
- `chroma_key.dfy` (module `ChromaKey`): `_is_greenish`. It compares the squared distance to the reference colour against the squared threshold, strictly.
- `glyphs.dfy` (module `Glyphs`): glyph choice by column, `pattern[x % len(pattern)]`.
- `render.dfy` (module `Render`): the cell written for one sample, the start-up loop that initialises colour pairs 1..256, and `_draw_frame`.
  - `_draw_frame` becomes the method `DrawFrame`: nested loops fill a 2-D screen array of `(glyph, pair)` cells.
  - `InitColorPairs` is a loop over an array that stands for the terminal's colour-pair table.

The screen is an `array2<Cell>`. Writing outside it fails, as curses `addstr` does. The source swallows that failure for a foreground glyph, which skips the cell. For a background blank the failure is not caught and ends the frame. So a failed cell is skipped only when it is foreground, not in every case. The model keeps both paths: `DrawFrame` returns `Drawn` or `Aborted(row, col)`.

A negative threshold acts like its absolute value, because the code squares it. So the reference colour is background exactly when the threshold is non-zero, not only when it is positive.

## Model

| member | source | states |
|---|---|---|
| `Settings.MakeConfig` | video_curses.py:9-17 | the constructor keeps the caller's video path, size and threshold, sets the reference colour to (0, 255, 0) and the pattern to "OIA"; the pattern is non-empty, so every glyph index is defined |
| `Settings.DefaultConfig` | video_curses.py:9-15 | the constructor's default arguments give a 90 × 45 grid, threshold 70 around (0, 255, 0) and a non-empty pattern |
| `Palette.Level` | video_curses.py:125-127 | a channel's level is in 0..5 and is the floor of 6c/256 (256·l ≤ 6c < 256·(l+1)) |
| `Palette.LevelIsFloorOfScaledChannel` | video_curses.py:125-127 | the level equals the floor of the real number c / 256 · 6, which is what `int(c/256.0*6)` truncates |
| `Palette.LevelMatchesRanges` | video_curses.py:125-127 | levels 0..5 cover the channel ranges 0-42, 43-85, 86-127, 128-170, 171-213 and 214-255 |
| `Palette.LevelMonotone` | video_curses.py:125-127 | a larger channel value never has a smaller level |
| `Palette.ColorIndex256` | video_curses.py:124-129 | the palette index of any 8-bit sample lies in 16..231: the colour cube, never the system colours or the grey ramp |
| `Palette.Min` | video_curses.py:129 | `min` gives the smaller of its two arguments, one of them |
| `Palette.CapNeverApplies` | video_curses.py:129 | the `min(..., 255)` cap never changes the result: the index is always 16 + 36R + 6G + B |
| `Palette.CubeLevels` | video_curses.py:129 | decoding a cube index gives three levels in 0..5 that re-encode to that index |
| `Palette.CubeDigits` | video_curses.py:129 | encoding three levels in 0..5 and decoding the result gives the same three levels back |
| `Palette.DecodeIndex` | video_curses.py:124-129 | the palette index of a sample decodes to that sample's red, green and blue levels |
| `Palette.SameIndexIffSameLevels` | video_curses.py:124-129 | two samples share an index if and only if all three of their levels agree (injective on the cube) |
| `Palette.Representative` | video_curses.py:125-127 | every level 0..5 is reached by some channel value |
| `Palette.EveryCubeIndexReached` | video_curses.py:124-129 | every index 16..231 is the palette index of some sample (onto the cube) |
| `Palette.IndexMonotoneInRed` | video_curses.py:125-129 | raising red with green and blue fixed never lowers the index |
| `Palette.IndexMonotoneInGreen` | video_curses.py:125-129 | raising green with red and blue fixed never lowers the index |
| `Palette.IndexMonotoneInBlue` | video_curses.py:125-129 | raising blue with red and green fixed never lowers the index |
| `ChromaKey.DistSq` | video_curses.py:116-121 | the squared distance to the reference colour is never negative and is zero exactly at the reference colour |
| `ChromaKey.IsGreenish` | video_curses.py:115-122 | a sample is background exactly when its squared distance to the reference colour is strictly less than the squared threshold; so only a non-zero threshold keys anything out |
| `ChromaKey.BoundaryIsNotBackground` | video_curses.py:121-122 | a sample exactly at the threshold distance is not background (the comparison is strict) |
| `ChromaKey.BaseIsBackgroundIff` | video_curses.py:115-122 | the reference colour itself is background if and only if the threshold is non-zero |
| `ChromaKey.ZeroThresholdKeysNothing` | video_curses.py:121-122 | with threshold 0 no sample is background |
| `ChromaKey.BackgroundIsNearBase` | video_curses.py:115-122 | every channel of a background sample is strictly within the threshold of the reference colour's channel |
| `ChromaKey.WiderThresholdKeepsBackground` | video_curses.py:121-122 | a sample that is background stays background under any threshold of larger or equal magnitude |
| `ChromaKey.DefaultThresholdBoundary` | video_curses.py:9-14 | with the default threshold 70 around pure green, (0, 185, 0) at distance 70 is kept and (0, 186, 0) at distance 69 is keyed out |
| `Glyphs.GlyphAt` | video_curses.py:100 | the glyph index is in bounds for a non-empty pattern, so the glyph is a pattern character; columns before the pattern's end show that column's character |
| `Glyphs.GlyphPeriodic` | video_curses.py:100 | columns x and x + k·len(pattern) show the same glyph |
| `Glyphs.OiaStripes` | video_curses.py:15 | with "OIA", columns 0, 1, 2 show O, I, A and column x + 3 repeats column x |
| `Render.MapCell` | video_curses.py:94-103 | a cell gets pair 0 exactly when its sample is background, and is then the blank `" "`; otherwise its pair is in 17..232 and its glyph is a pattern character |
| `Render.PairShowsLevels` | video_curses.py:102-103 | a foreground cell's pair minus one decodes to its sample's three levels |
| `Render.SamePairIffSameLevels` | video_curses.py:102-103 | two foreground cells share a pair if and only if their samples share all three levels, whatever their columns |
| `Render.GlyphIgnoresColour` | video_curses.py:99-100 | a foreground glyph depends only on the column, not on the sample's colour |
| `Render.CellPeriodic` | video_curses.py:99-103 | the whole cell for a sample repeats every len(pattern) columns |
| `Render.BlankIffBackground` | video_curses.py:94-100 | when the pattern has no space, as "OIA" has none, a cell shows a space exactly when its sample is background |
| `Render.BaseColourIsBlank` | video_curses.py:94-97 | a sample of the reference colour is drawn as the blank whenever the threshold is non-zero |
| `Render.InitialisedPair` | video_curses.py:35-36 | the start-up loop gives colours to pairs 1..256 and to no other pair number |
| `Render.CellPairInitialised` | video_curses.py:102-103 | every foreground cell uses a pair that start-up initialised; that pair's foreground is the cell's palette index and its background is the terminal default |
| `Render.InitColorPairs` | video_curses.py:34-36 | it succeeds exactly when the terminal has a pair slot for every number up to 256 and at least 256 colours. Otherwise it stops at the first pair number without a slot or the first colour number the terminal lacks. Every pair set before the stop holds (n - 1, default), and every other slot is unchanged |
| `Render.Stops` | video_curses.py:94-108 | only a background sample whose blank falls off the screen stops the frame; a foreground sample or an on-screen cell never does, and with a zero threshold nothing stops it |
| `Render.DrawFrame` | video_curses.py:83-110 | it ends with `Drawn` exactly when no background sample lies off the screen. Otherwise it stops at the first such sample in row-major order. Every screen cell that the loop visited holds `MapCell` of its sample and column, and every other screen cell is unchanged |
| `Render.DrawSolidBaseFrame` | video_curses.py:84-110 | a frame of pure reference colour that fits the screen, with a non-zero threshold, is drawn in full and every one of its cells is blank |

## Left out

- The playback loop of `run` (video_curses.py:20-81) is not modelled: opening the media player, reading frames, sleeping until each frame is due, polling for `q`, and the curses set-up calls (`curs_set`, `nodelay`, `clear`, `has_colors`, `start_color`, `use_default_colors`). These are I/O and calls into external libraries. Only the colour-pair loop at lines 35-36 is modelled.
- The resize to the cell grid with `cv2.resize` (video_curses.py:61-65) is not modelled: it is an external library. `DrawFrame` takes the resized frame as its input, with channels in 0..255.
- The brightness adjustment (video_curses.py:67-69) is not modelled: it is float32 arithmetic. For the same reason the `alpha` and `beta` fields are not in `Config`.
- ChromaKey.IsGreenish: the threshold `green_dist` is an integer in the model. The constructor would also accept a float, whose square is a fractional bound; the program itself only passes 70.
- The `width` and `height` fields are only read by `cv2.resize`, which is left out. The frame that `DrawFrame` receives is the resize output, of `height` rows and `width` columns. The model does not state that link, and `DrawFrame` takes its loop bounds from the frame, as the source does at video_curses.py:84.
- The `player` field is not in `Config`: it is a media-player handle.
- `stdscr.refresh()` (video_curses.py:110) is screen I/O. In the model, reaching it corresponds to the outcome `Drawn`.
- The curses colour-pair attribute (`curses.color_pair(n)`) is represented by the pair number `n` itself.
- DrawFrame: a write fails only when it lies outside the screen. The curses case where writing the bottom-right cell reports an error after the character is written is not modelled.
- InitColorPairs: `init_pair` fails only for a pair number without a slot or a colour number of at least `colors`; other curses failures are not modelled. After a failure, what `run` does is not modelled.
- The `finally` clause of `_draw_frame` (video_curses.py:112-113) is not modelled. It calls `cv2.destROYAllWindows`, which the cv2 library does not define, so it would raise `AttributeError` at the end of any frame drawn. As written, though, `_draw_frame` is never reached. `run` passes the bare name `video_path` to `MediaPlayer` at video_curses.py:39, and no such name is defined there: it is a local of `main`, and the field is `self.video_path`. So line 39 raises `NameError` right after the colour-pair loop. The `finally` of `run` (video_curses.py:80-81) then calls `close_player` on `self.player`, which is still `None`, and that raises `AttributeError`, which `main` prints (video_curses.py:144-145). The model describes `_draw_frame` as if it were called with a frame. If it were, the `destROYAllWindows` error would end the program after that first frame, and it would also replace the curses error of a failed background write at video_curses.py:96.
- `main` and the top-level error reporting (video_curses.py:131-151) are not modelled: they are I/O.

=== FILE: chroma_key.dfy ===
/** The chroma-key test: a sample close enough to the reference colour is
    background and is drawn blank. */
module ChromaKey {
  import opened Settings

  function Abs(x: int): nat
  {
    if x < 0 then -x else x
  }

  /** Squared Euclidean distance from (r, g, b) to the reference colour: never
      negative, and zero exactly at the reference colour. */
  function DistSq(r: Channel, g: Channel, b: Channel, base: Pixel): (d: int)
    ensures d >= 0
    ensures d == 0 <==> r == base.r && g == base.g && b == base.b
  {
    SquarePositive(r - base.r);
    SquarePositive(g - base.g);
    SquarePositive(b - base.b);
    (r - base.r) * (r - base.r) + (g - base.g) * (g - base.g) + (b - base.b) * (b - base.b)
  }

  /** `_is_greenish`: the squared distance is strictly below the squared
      threshold. The first ensures is that definition, stated for callers;
      the second is its consequence that a zero threshold keys out nothing. */
  predicate IsGreenish(cfg: Config, r: Channel, g: Channel, b: Channel)
    ensures IsGreenish(cfg, r, g, b) <==> DistSq(r, g, b, cfg.greenBase) < cfg.greenDist * cfg.greenDist
    ensures IsGreenish(cfg, r, g, b) ==> cfg.greenDist != 0
  {
    SquarePositive(cfg.greenDist);
    DistSq(r, g, b, cfg.greenBase) < cfg.greenDist * cfg.greenDist
  }

  /** A sample exactly at the threshold distance is not background. */
  lemma BoundaryIsNotBackground(cfg: Config, r: Channel, g: Channel, b: Channel)
    ensures DistSq(r, g, b, cfg.greenBase) == cfg.greenDist * cfg.greenDist ==> !IsGreenish(cfg, r, g, b)
  {
  }

  lemma {:induction false} SquarePositive(t: int)
    ensures t * t >= 0
    ensures t * t == 0 <==> t == 0
  {
  }

  /** The reference colour itself is background exactly when the threshold is
      non-zero. */
  lemma {:induction false} BaseIsBackgroundIff(cfg: Config)
    ensures IsGreenish(cfg, cfg.greenBase.r, cfg.greenBase.g, cfg.greenBase.b) <==> cfg.greenDist != 0
  {
    SquarePositive(cfg.greenDist);
  }

  /** With a zero threshold nothing is background. */
  lemma {:induction false} ZeroThresholdKeysNothing(cfg: Config, r: Channel, g: Channel, b: Channel)
    requires cfg.greenDist == 0
    ensures !IsGreenish(cfg, r, g, b)
  {
  }

  /** For non-negative a and b, a*a < b*b only when a < b. */
  lemma {:induction false} SquareLessImpliesLess(a: nat, b: nat)
    requires a * a < b * b
    ensures a < b
  {
  }

  lemma {:induction false} SquareOfAbs(x: int)
    ensures Abs(x) * Abs(x) == x * x
  {
  }

  /** A background sample lies within the threshold of the reference colour
      on every channel separately. */
  lemma {:induction false} BackgroundIsNearBase(cfg: Config, r: Channel, g: Channel, b: Channel)
    requires IsGreenish(cfg, r, g, b)
    ensures Abs(r - cfg.greenBase.r) < Abs(cfg.greenDist)
    ensures Abs(g - cfg.greenBase.g) < Abs(cfg.greenDist)
    ensures Abs(b - cfg.greenBase.b) < Abs(cfg.greenDist)
  {
    var t := cfg.greenDist;
    var dr, dg, db := r - cfg.greenBase.r, g - cfg.greenBase.g, b - cfg.greenBase.b;
    SquareOfAbs(dr);
    SquareOfAbs(dg);
    SquareOfAbs(db);
    SquareOfAbs(t);
    SquareLessImpliesLess(Abs(dr), Abs(t));
    SquareLessImpliesLess(Abs(dg), Abs(t));
    SquareLessImpliesLess(Abs(db), Abs(t));
  }

  lemma {:induction false} SquareMonotone(a: nat, b: nat)
    requires a <= b
    ensures a * a <= b * b
  {
  }

  /** Widening the threshold (in absolute value) keeps every background
      sample background. */
  lemma {:induction false} WiderThresholdKeepsBackground(cfg: Config, wider: int, r: Channel, g: Channel, b: Channel)
    requires Abs(cfg.greenDist) <= Abs(wider)
    ensures IsGreenish(cfg, r, g, b) ==> IsGreenish(cfg.(greenDist := wider), r, g, b)
  {
    SquareOfAbs(cfg.greenDist);
    SquareOfAbs(wider);
    SquareMonotone(Abs(cfg.greenDist), Abs(wider));
  }

  /** With the default threshold 70 around pure green: (0, 185, 0), at distance
      exactly 70, is kept; (0, 186, 0), at distance 69, is keyed out. */
  lemma DefaultThresholdBoundary(videoPath: string)
    ensures !IsGreenish(DefaultConfig(videoPath), 0, 185, 0)
    ensures IsGreenish(DefaultConfig(videoPath), 0, 186, 0)
  {
  }
}

=== FILE: config.dfy ===
/** Pixels and the renderer's configuration record.

    A decoded frame holds 8-bit RGB samples; the renderer's settings are fixed
    when the player object is built and never change afterwards. */
module Settings {

  /** One 8-bit colour channel, as read out of a uint8 frame buffer. */
  type Channel = c: int | 0 <= c <= 255

  /** An RGB sample of the resized frame. */
  datatype Pixel = Pixel(r: Channel, g: Channel, b: Channel)

  /** The fields the player's constructor sets (brightness gain and offset,
      which are floating-point numbers, are not part of this model). */
  datatype Config = Config(
    videoPath: string,
    width: int,
    height: int,
    greenBase: Pixel,   // chroma-key reference colour
    greenDist: int,     // chroma-key distance threshold
    pattern: string     // glyphs repeated across each row
  )

  /** The glyph pattern must be non-empty: the renderer indexes it by
      `x % len(pattern)`. */
  predicate ValidConfig(cfg: Config)
  {
    |cfg.pattern| > 0
  }

  const PureGreen: Pixel := Pixel(0, 255, 0)
  const GlyphPattern: string := "OIA"

  /** The player's constructor: the reference colour and the glyph pattern are
      fixed, the rest comes from the caller. */
  function MakeConfig(videoPath: string, width: int, height: int, greenThresh: int): (cfg: Config)
    ensures ValidConfig(cfg)
    ensures cfg.greenBase == Pixel(0, 255, 0) && cfg.pattern == ['O', 'I', 'A']
    ensures cfg.greenDist == greenThresh && cfg.width == width && cfg.height == height
    ensures cfg.videoPath == videoPath
  {
    Config(videoPath, width, height, PureGreen, greenThresh, GlyphPattern)
  }

  /** The constructor with its default arguments (90 x 45 cells, threshold 70). */
  function DefaultConfig(videoPath: string): (cfg: Config)
    ensures ValidConfig(cfg) && cfg.videoPath == videoPath
    ensures cfg.width == 90 && cfg.height == 45 && cfg.greenDist == 70
    ensures cfg.greenBase == Pixel(0, 255, 0)
  {
    MakeConfig(videoPath, 90, 45, 70)
  }
}

=== FILE: glyphs.dfy ===
/** Glyph choice: a foreground cell shows the pattern character picked by its
    column, so the pattern repeats across every row as vertical stripes. */
module Glyphs {

  /** `pattern[x % len(pattern)]`. */
  function GlyphAt(pattern: string, x: nat): (c: char)
    requires |pattern| > 0
    ensures c in pattern
    ensures x < |pattern| ==> c == pattern[x]
  {
    pattern[x % |pattern|]
  }

  lemma {:induction false} MulSplit(d: nat, q: nat, n: nat)
    ensures (q + d) * n == q * n + d * n
  {
  }

  lemma {:induction false} MulAtLeast(d: nat, n: nat)
    requires d >= 1
    ensures d * n >= n
  {
  }

  /** Euclidean division is unique: a quotient and a remainder in range fix a % n. */
  lemma {:induction false} ModUnique(a: nat, n: nat, q: nat, m: nat)
    requires n > 0 && m < n && a == q * n + m
    ensures a % n == m
  {
    var q', m' := a / n, a % n;
    assert a == q' * n + m';
    if q' < q {
      MulSplit(q - q', q', n);
      MulAtLeast(q - q', n);
      assert false;
    } else if q' > q {
      MulSplit(q' - q, q, n);
      MulAtLeast(q' - q, n);
      assert false;
    }
  }

  lemma {:induction false} ModShift(y: nat, n: nat)
    requires n > 0
    ensures (y + n) % n == y % n
  {
    var q, m := y / n, y % n;
    assert y + n == (q + 1) * n + m;
    ModUnique(y + n, n, q + 1, m);
  }

  /** Columns x and x + k * len(pattern) show the same glyph. */
  lemma {:induction false} GlyphPeriodic(pattern: string, x: nat, k: nat)
    requires |pattern| > 0
    ensures GlyphAt(pattern, x + k * |pattern|) == GlyphAt(pattern, x)
  {
    if k > 0 {
      GlyphPeriodic(pattern, x, k - 1);
      var y := x + (k - 1) * |pattern|;
      assert x + k * |pattern| == y + |pattern|;
      ModShift(y, |pattern|);
    }
  }

  /** With the pattern "OIA", columns 0, 1, 2 show O, I, A and column x + 3
      shows what column x shows. */
  lemma {:induction false} OiaStripes(x: nat)
    ensures GlyphAt("OIA", 0) == 'O' && GlyphAt("OIA", 1) == 'I' && GlyphAt("OIA", 2) == 'A'
    ensures GlyphAt("OIA", x + 3) == GlyphAt("OIA", x)
  {
    GlyphPeriodic("OIA", x, 1);
  }
}

=== FILE: palette.dfy ===
/** Quantisation of an RGB sample onto the 6 x 6 x 6 colour cube of the xterm
    256-colour palette (indices 16..231; 0..15 are the system colours and
    232..255 the grey ramp). */
module Palette {
  import opened Settings

  /** The level of one channel, `int(c / 256.0 * 6)` in the source.
      For c in 0..255 the floating-point computation is exact: dividing by 256
      only shifts the exponent, and 6 * c <= 1530 needs far fewer than the 53
      bits of a double, so the product is the exact rational 6c/256 and the
      truncation toward zero is its floor. */
  function Level(c: Channel): (l: nat)
    ensures l <= 5
    ensures 256 * l <= 6 * c < 256 * (l + 1)
  {
    (6 * c) / 256
  }

  /** The source's formula evaluated over the reals: Level is its floor. */
  lemma LevelIsFloorOfScaledChannel(c: Channel)
    ensures ((c as real) / 256.0 * 6.0).Floor == Level(c)
  {
    var l := Level(c);
    var x := (c as real) / 256.0 * 6.0;
    assert x == (6 * c) as real / 256.0;
    assert (256 * l) as real <= (6 * c) as real < (256 * (l + 1)) as real;
    assert l as real <= x < (l + 1) as real;
  }

  /** An independent description of the six levels by their channel ranges. */
  function LevelByRange(c: Channel): nat
  {
    if c < 43 then 0
    else if c < 86 then 1
    else if c < 128 then 2
    else if c < 171 then 3
    else if c < 214 then 4
    else 5
  }

  lemma LevelMatchesRanges(c: Channel)
    ensures Level(c) == LevelByRange(c)
  {
  }

  function Min(a: int, b: int): (m: int)
    ensures m <= a && m <= b
    ensures m == a || m == b
  {
    if a < b then a else b
  }

  /** `_color_index_256`: the palette index of an RGB sample. */
  function ColorIndex256(r: Channel, g: Channel, b: Channel): (i: int)
    ensures 16 <= i <= 231
  {
    Min(16 + 36 * Level(r) + 6 * Level(g) + Level(b), 255)
  }

  /** The cap at 255 never takes effect: the index is always the plain cube
      position. */
  lemma CapNeverApplies(r: Channel, g: Channel, b: Channel)
    ensures ColorIndex256(r, g, b) == 16 + 36 * Level(r) + 6 * Level(g) + Level(b)
    ensures ColorIndex256(r, g, b) < 255
  {
  }

  /** The levels a cube index stands for. */
  function CubeLevels(i: int): (levels: (nat, nat, nat))
    requires 16 <= i <= 231
    ensures levels.0 <= 5 && levels.1 <= 5 && levels.2 <= 5
    ensures i == 16 + 36 * levels.0 + 6 * levels.1 + levels.2
  {
    ((i - 16) / 36, ((i - 16) / 6) % 6, (i - 16) % 6)
  }

  /** Packing three levels in 0..5 as 36R + 6G + B is undone by CubeLevels. */
  lemma {:induction false} CubeDigits(rl: nat, gl: nat, bl: nat)
    requires rl <= 5 && gl <= 5 && bl <= 5
    ensures CubeLevels(16 + 36 * rl + 6 * gl + bl) == (rl, gl, bl)
  {
    var n := 36 * rl + 6 * gl + bl;
    assert n / 6 == 6 * rl + gl by {
      assert n == 6 * (6 * rl + gl) + bl;
    }
    assert (6 * rl + gl) % 6 == gl && (6 * rl + gl) / 6 == rl;
    assert n / 36 == rl by {
      assert n == 36 * rl + (6 * gl + bl) && 6 * gl + bl < 36;
    }
    assert n % 6 == bl;
  }

  /** The palette index decodes back to the three channel levels. */
  lemma {:induction false} DecodeIndex(r: Channel, g: Channel, b: Channel)
    ensures CubeLevels(ColorIndex256(r, g, b)) == (Level(r), Level(g), Level(b))
  {
    CapNeverApplies(r, g, b);
    CubeDigits(Level(r), Level(g), Level(b));
  }

  /** Two samples share a palette index exactly when they share all three
      levels: the index is injective on the cube. */
  lemma {:induction false} SameIndexIffSameLevels(r1: Channel, g1: Channel, b1: Channel,
                                                 r2: Channel, g2: Channel, b2: Channel)
    ensures ColorIndex256(r1, g1, b1) == ColorIndex256(r2, g2, b2)
        <==> Level(r1) == Level(r2) && Level(g1) == Level(g2) && Level(b1) == Level(b2)
  {
    DecodeIndex(r1, g1, b1);
    DecodeIndex(r2, g2, b2);
    CapNeverApplies(r1, g1, b1);
    CapNeverApplies(r2, g2, b2);
  }

  /** A channel value that lies in level l. */
  function Representative(l: nat): (c: Channel)
    requires l <= 5
    ensures Level(c) == l
  {
    43 * l
  }

  /** Every cube index 16..231 is reached: the map is onto the cube (and, by
      the range bound of ColorIndex256, never reaches the grey ramp). */
  lemma {:induction false} EveryCubeIndexReached(i: int)
    requires 16 <= i <= 231
    ensures exists r: Channel, g: Channel, b: Channel :: ColorIndex256(r, g, b) == i
  {
    var (rl, gl, bl) := CubeLevels(i);
    var r, g, b := Representative(rl), Representative(gl), Representative(bl);
    CapNeverApplies(r, g, b);
    assert ColorIndex256(r, g, b) == i;
  }

  lemma LevelMonotone(c1: Channel, c2: Channel)
    requires c1 <= c2
    ensures Level(c1) <= Level(c2)
  {
  }

  /** Raising the red channel alone never lowers the index. */
  lemma {:induction false} IndexMonotoneInRed(r1: Channel, r2: Channel, g: Channel, b: Channel)
    requires r1 <= r2
    ensures ColorIndex256(r1, g, b) <= ColorIndex256(r2, g, b)
  {
    LevelMonotone(r1, r2);
    CapNeverApplies(r1, g, b);
    CapNeverApplies(r2, g, b);
  }

  /** Raising the green channel alone never lowers the index. */
  lemma {:induction false} IndexMonotoneInGreen(r: Channel, g1: Channel, g2: Channel, b: Channel)
    requires g1 <= g2
    ensures ColorIndex256(r, g1, b) <= ColorIndex256(r, g2, b)
  {
    LevelMonotone(g1, g2);
    CapNeverApplies(r, g1, b);
    CapNeverApplies(r, g2, b);
  }

  /** Raising the blue channel alone never lowers the index. */
  lemma {:induction false} IndexMonotoneInBlue(r: Channel, g: Channel, b1: Channel, b2: Channel)
    requires b1 <= b2
    ensures ColorIndex256(r, g, b1) <= ColorIndex256(r, g, b2)
  {
    LevelMonotone(b1, b2);
    CapNeverApplies(r, g, b1);
    CapNeverApplies(r, g, b2);
  }
}

=== FILE: render.dfy ===
/** Drawing one frame: every sample of the resized frame becomes one terminal
    cell, either a blank in the default colour pair (background) or a pattern
    glyph in the colour pair of its palette index. */
module Render {
  import opened Settings
  import opened Palette
  import opened ChromaKey
  import opened Glyphs

  /** One terminal cell: the character written and its colour-pair number. */
  datatype Cell = Cell(glyph: char, pair: int)

  /** What a background sample is drawn as: a space in pair 0. */
  const Blank: Cell := Cell(' ', 0)

  /** The cell drawn for sample p at column x. */
  function MapCell(cfg: Config, p: Pixel, x: nat): (c: Cell)
    requires ValidConfig(cfg)
    ensures c.pair == 0 <==> IsGreenish(cfg, p.r, p.g, p.b)
    ensures c.pair == 0 ==> c == Blank
    ensures c.pair != 0 ==> 17 <= c.pair <= 232 && c.glyph in cfg.pattern
  {
    if IsGreenish(cfg, p.r, p.g, p.b) then Blank
    else Cell(GlyphAt(cfg.pattern, x), ColorIndex256(p.r, p.g, p.b) + 1)
  }

  /** A foreground cell's pair number identifies the quantised colour of its
      sample: pair - 1 decodes to the three channel levels. */
  lemma {:induction false} PairShowsLevels(cfg: Config, p: Pixel, x: nat)
    requires ValidConfig(cfg)
    requires !IsGreenish(cfg, p.r, p.g, p.b)
    ensures CubeLevels(MapCell(cfg, p, x).pair - 1) == (Level(p.r), Level(p.g), Level(p.b))
  {
    DecodeIndex(p.r, p.g, p.b);
  }

  /** Two foreground samples get the same pair exactly when their channels
      fall into the same levels. */
  lemma {:induction false} SamePairIffSameLevels(cfg: Config, p: Pixel, q: Pixel, x: nat, x': nat)
    requires ValidConfig(cfg)
    requires !IsGreenish(cfg, p.r, p.g, p.b) && !IsGreenish(cfg, q.r, q.g, q.b)
    ensures MapCell(cfg, p, x).pair == MapCell(cfg, q, x').pair
        <==> Level(p.r) == Level(q.r) && Level(p.g) == Level(q.g) && Level(p.b) == Level(q.b)
  {
    SameIndexIffSameLevels(p.r, p.g, p.b, q.r, q.g, q.b);
  }

  /** A cell's glyph depends only on its column: two foreground samples in the
      same column show the same glyph, whatever their colours. */
  lemma GlyphIgnoresColour(cfg: Config, p: Pixel, q: Pixel, x: nat)
    requires ValidConfig(cfg)
    requires !IsGreenish(cfg, p.r, p.g, p.b) && !IsGreenish(cfg, q.r, q.g, q.b)
    ensures MapCell(cfg, p, x).glyph == MapCell(cfg, q, x).glyph == GlyphAt(cfg.pattern, x)
  {
  }

  /** The whole cell repeats every len(pattern) columns. */
  lemma {:induction false} CellPeriodic(cfg: Config, p: Pixel, x: nat, k: nat)
    requires ValidConfig(cfg)
    ensures MapCell(cfg, p, x + k * |cfg.pattern|) == MapCell(cfg, p, x)
  {
    GlyphPeriodic(cfg.pattern, x, k);
  }

  /** Only a blank is drawn as a space when the pattern has no space in it, as
      is the case for "OIA". */
  lemma BlankIffBackground(cfg: Config, p: Pixel, x: nat)
    requires ValidConfig(cfg) && ' ' !in cfg.pattern
    ensures MapCell(cfg, p, x).glyph == ' ' <==> IsGreenish(cfg, p.r, p.g, p.b)
  {
  }

  /** A solid reference-colour sample is drawn blank whenever the threshold is
      non-zero (pure green with the default threshold 70). */
  lemma {:induction false} BaseColourIsBlank(cfg: Config, x: nat)
    requires ValidConfig(cfg) && cfg.greenDist != 0
    ensures MapCell(cfg, cfg.greenBase, x) == Blank
  {
    BaseIsBackgroundIff(cfg);
  }

  /** The colours of an initialised colour pair. */
  datatype PairColors = PairColors(foreground: int, background: int)

  /** Colour -1 stands for the terminal's default colour. */
  const DefaultColor: int := -1

  datatype Option<T> = None | Some(value: T)

  /** The colours the start-up loop gives pair number n, if any. */
  function InitialisedPair(n: int): (pc: Option<PairColors>)
    ensures pc.Some? <==> 1 <= n <= 256
  {
    if 1 <= n <= 256 then Some(PairColors(n - 1, DefaultColor)) else None
  }

  /** Every foreground cell uses a pair the start-up loop initialised, and that
      pair's foreground colour is the cell's palette index over the default
      background. */
  lemma {:induction false} CellPairInitialised(cfg: Config, p: Pixel, x: nat)
    requires ValidConfig(cfg)
    requires !IsGreenish(cfg, p.r, p.g, p.b)
    ensures InitialisedPair(MapCell(cfg, p, x).pair) == Some(PairColors(ColorIndex256(p.r, p.g, p.b), DefaultColor))
  {
  }

  /** The start-up loop `init_pair(i + 1, i, -1)` for i in 0..255. The table
      has one slot per colour pair the terminal supports (its length is
      curses' COLOR_PAIRS) and `colors` is the number of colours it supports
      (COLORS). init_pair raises for a pair number without a slot or a colour
      number the terminal lacks, which ends the loop: ok reports whether all
      256 pairs were set, and the pairs set are exactly those before the first
      failure. */
  method InitColorPairs(table: array<PairColors>, colors: nat) returns (ok: bool)
    modifies table
    ensures ok <==> table.Length > 256 && colors >= 256
    ensures forall n :: 0 <= n < table.Length ==>
              table[n] == if 1 <= n <= 256 && n <= colors then InitialisedPair(n).value else old(table[n])
  {
    var i := 0;
    while i < 256
      invariant 0 <= i <= 256
      invariant i > 0 ==> i < table.Length && i <= colors
      invariant forall n :: 0 <= n < table.Length ==>
                  table[n] == if 1 <= n <= i then InitialisedPair(n).value else old(table[n])
    {
      if i + 1 >= table.Length || i >= colors {
        return false;
      }
      table[i + 1] := PairColors(i, DefaultColor);
      i := i + 1;
    }
    return true;
  }

  /** How drawing a frame ended: every sample visited, or stopped by the
      failed write of a background blank at (row, col). */
  datatype Outcome = Drawn | Aborted(row: nat, col: nat)

  /** Writing to (y, x) fails when the cell lies outside the screen (the
      model's reading of a failing curses `addstr`). */
  predicate OffScreen(y: nat, x: nat, screen: array2<Cell>)
  {
    y >= screen.Length0 || x >= screen.Length1
  }

  /** The failure that stops a frame: a background sample whose blank cannot
      be written. Failed writes of foreground cells are ignored. The first two
      ensures restate the two conjuncts of this definition for callers; the
      third is its consequence that a zero threshold never stops a frame. */
  predicate Stops(cfg: Config, p: Pixel, y: nat, x: nat, screen: array2<Cell>)
    ensures !IsGreenish(cfg, p.r, p.g, p.b) ==> !Stops(cfg, p, y, x, screen)
    ensures y < screen.Length0 && x < screen.Length1 ==> !Stops(cfg, p, y, x, screen)
    ensures Stops(cfg, p, y, x, screen) ==> cfg.greenDist != 0
  {
    IsGreenish(cfg, p.r, p.g, p.b) && OffScreen(y, x, screen)
  }

  /** (y, x) comes before (y', x') in row-major order. */
  predicate Before(y: nat, x: nat, y': nat, x': nat)
  {
    y < y' || (y == y' && x < x')
  }

  /** The position the frame loop stopped at: one row past the end when it
      visited every sample. */
  function StopRow(out: Outcome, height: nat): nat
  {
    if out.Drawn? then height else out.row
  }

  function StopCol(out: Outcome): nat
  {
    if out.Drawn? then 0 else out.col
  }

  /** `_draw_frame`: visit the frame's samples row by row and write each one's
      cell at the same position on the screen. A sample outside the screen
      is skipped if it is foreground and stops the frame if it is background.
      The frame is the resize output, cfg.height rows of cfg.width samples;
      like the source, the loop takes its bounds from the frame itself.
      Afterwards each screen cell visited holds its sample's mapped cell and
      every other screen cell is unchanged. */
  method DrawFrame(cfg: Config, frame: array2<Pixel>, screen: array2<Cell>) returns (out: Outcome)
    requires ValidConfig(cfg)
    modifies screen
    ensures out.Drawn? <==>
              forall y: nat, x: nat :: y < frame.Length0 && x < frame.Length1 ==> !Stops(cfg, frame[y, x], y, x, screen)
    ensures out.Aborted? ==>
              out.row < frame.Length0 && out.col < frame.Length1 &&
              Stops(cfg, frame[out.row, out.col], out.row, out.col, screen) &&
              forall y: nat, x: nat :: y < frame.Length0 && x < frame.Length1 && Before(y, x, out.row, out.col) ==>
                !Stops(cfg, frame[y, x], y, x, screen)
    ensures forall i: nat, j: nat :: i < screen.Length0 && j < screen.Length1 ==>
              screen[i, j] == if i < frame.Length0 && j < frame.Length1 && Before(i, j, StopRow(out, frame.Length0), StopCol(out))
                              then MapCell(cfg, frame[i, j], j)
                              else old(screen[i, j])
  {
    var y := 0;
    while y < frame.Length0
      invariant 0 <= y <= frame.Length0
      invariant forall y': nat, x': nat :: y' < y && x' < frame.Length1 ==> !Stops(cfg, frame[y', x'], y', x', screen)
      invariant forall i: nat, j: nat :: i < screen.Length0 && j < screen.Length1 ==>
                  screen[i, j] == if i < y && i < frame.Length0 && j < frame.Length1 then MapCell(cfg, frame[i, j], j)
                                  else old(screen[i, j])
    {
      var x := 0;
      while x < frame.Length1
        invariant 0 <= x <= frame.Length1
        invariant forall y': nat, x': nat :: y' < frame.Length0 && x' < frame.Length1 && Before(y', x', y, x) ==>
                    !Stops(cfg, frame[y', x'], y', x', screen)
        invariant forall i: nat, j: nat :: i < screen.Length0 && j < screen.Length1 ==>
                    screen[i, j] == if i < frame.Length0 && j < frame.Length1 && Before(i, j, y, x) then MapCell(cfg, frame[i, j], j)
                                    else old(screen[i, j])
      {
        var p := frame[y, x];
        if IsGreenish(cfg, p.r, p.g, p.b) {
          if OffScreen(y, x, screen) {
            return Aborted(y, x);
          }
          screen[y, x] := Blank;
        } else {
          var c := Cell(GlyphAt(cfg.pattern, x), ColorIndex256(p.r, p.g, p.b) + 1);
          if !OffScreen(y, x, screen) {
            screen[y, x] := c;
          }
        }
        x := x + 1;
      }
      y := y + 1;
    }
    return Drawn;
  }

  /** A frame filled with the reference colour, on a screen that holds it,
      is drawn completely and entirely blank when the threshold is non-zero. */
  method DrawSolidBaseFrame(cfg: Config, frame: array2<Pixel>, screen: array2<Cell>) returns (out: Outcome)
    requires ValidConfig(cfg) && cfg.greenDist != 0
    requires frame.Length0 <= screen.Length0 && frame.Length1 <= screen.Length1
    requires forall y: nat, x: nat :: y < frame.Length0 && x < frame.Length1 ==> frame[y, x] == cfg.greenBase
    modifies screen
    ensures out == Drawn
    ensures forall i: nat, j: nat :: i < frame.Length0 && j < frame.Length1 ==> screen[i, j] == Blank
  {
    out := DrawFrame(cfg, frame, screen);
    forall i: nat, j: nat | i < frame.Length0 && j < frame.Length1
      ensures screen[i, j] == Blank
    {
      BaseColourIsBlank(cfg, j);
    }
  }
}
